=== FILE: README.md ===
# Georgian/English Telegram assistant: session core and setup checks

A Dafny model of the core of a Telegram bot that chats through a Claude
completion endpoint in Georgian and English, and of the credential checks of
its setup wizard.

- `language.dfy` (`Language`): `detect_language`. It tallies characters of the
  Georgian block U+10A0..U+10FF and ASCII letters and returns the script with
  strictly more characters, or `mixed` on a tie. It also holds the length gate
  the `/start`, `/stats` (more than 6 characters) and `/newchat` (more than 8)
  handlers put in front of the detector.
- `prompts.dfy` (`Prompts`): the persona table with its fallback to the mixed
  persona, the Telegram formatting block, the fixed acknowledgement, and the
  localized placeholder and error texts.
- `store.dfy` (`Store`): the three SQLite tables as maps keyed by user id.
  - `chat_context` holds turns with an insertion id and a timestamp.
  - `user_profiles` and `user_preferences` are plain maps.
  - The operations are `add_message_to_context` (insert, then prune to the
    user's `context_length` or 20), `get_user_context`, `clear_user_context`,
    `update_user_profile` (INSERT OR REPLACE plus INSERT OR IGNORE) and
    `get_user_stats`.
  - The pruning DELETE has an independent reference definition, "rows with
    fewer than n newer rows". A lemma proves that keeping the suffix is
    exactly that selection.
- `session.dfy` (`Session`): `message_handler` and the three command handlers.
  - The completion call is a parameter: an answer, an `APIError`, or any
    other exception. An answer also records whether it reached the screen:
    formatting it or editing the placeholder with it can raise after the
    answer is stored, and the handler then shows the generic error notice.
  - The time the call takes is a parameter too.
- `setup.dfy` (`Setup`): `validate_telegram_token`, `validate_langdock_key`,
  Python's `str.strip` and `str.replace`, the input loops that repeat until a
  value passes, and the `.env` rewrite of `setup_environment`. Console input
  is a sequence of lines; the `.env` file is its text, or `None` when the file
  is missing.

Time is a store-level clock that only `Elapse` advances. The SQL orders
turns by `timestamp` alone, which has one-second resolution, so the model
breaks ties by insertion id. Under that order, the pruning keeps exactly the
last `n` turns of the insertion-ordered history.

Two details follow the code where a plain reading would differ:
- **LIMIT semantics.** A negative `context_length` reaches `LIMIT ?`, and
  SQLite treats a negative limit as no limit, so every turn is kept.
  `context_length` 0 deletes every turn, including the one just inserted.
  That is why "the new turn is kept" is stated for a non-zero length.
- **Profile update outside the error handling.** `update_user_profile` runs
  outside `message_handler`'s `try`. A profile write is therefore not a
  best-effort step of the error paths. It always happens before the
  placeholder is sent, and the model does that.

## Model

| member | source | states |
|---|---|---|
| Language.DetectByPositions | bot.py:159-169 | the answer is Georgian iff more positions hold U+10A0..U+10FF characters than ASCII letters, English iff the reverse holds, Mixed iff the counts are equal |
| Language.CountsAppend | bot.py:161-162 | the two tallies add up over concatenation: the classifier looks at the whole text |
| Language.AllGeorgianIsGeorgian | bot.py:52 | a non-empty text made only of Georgian-block characters is classified Georgian |
| Language.AllLatinIsEnglish | bot.py:53 | a non-empty text made only of ASCII letters is classified English |
| Language.ScriptFreeIsMixed | bot.py:168-169 | a text with neither script, the empty text included, is Mixed |
| Language.Tally | bot.py:161-162 | one left-to-right pass computes both tallies, and their sum never exceeds the length |
| Language.CommandLanguage | bot.py:280 | Georgian iff the text is longer than the threshold and has more Georgian-block positions than ASCII-letter positions; English likewise the other way; Mixed iff the text is at most the threshold or the position counts tie |
| Language.CommandWordCounts | bot.py:280 | past the length gate the whole text is classified, so the command word's letters count as Latin against the rest of the message |
| Language.ShortGeorgianAfterCommandIsEnglish | bot.py:331 | "/stats ჰო" is answered in English: the five command letters outweigh the two Georgian letters |
| Language.BareCommandsAreMixed | bot.py:280-331 | `/start`, `/stats` and `/newchat` sent bare are below their thresholds (6 and 8) and answer as Mixed |
| Language.GreetingIsGeorgian | bot.py:159-169 | the greeting გამარჯობა is classified Georgian |
| Prompts.PromptFor | bot.py:380 | the lookup always yields one of the table's personas |
| Prompts.PromptForCategory | bot.py:56-112 | looking up a detected category's name yields that category's persona |
| Prompts.PromptFallback | bot.py:380 | any key outside the table yields the mixed persona |
| Prompts.InstructionText | bot.py:403 | the instruction text starts with the persona and ends with the formatting block, separated by a blank line |
| Store.Prune | bot.py:205-214 | a non-negative limit keeps min(n, len) turns and a negative limit keeps all; what is kept is the tail of the history in order |
| Store.PruneIsSelection | bot.py:205-214 | on a chronological history, keeping the tail equals the reference selection of rows with fewer than n newer rows |
| Store.AddTurn | bot.py:189-216 | bound n on the user's turns; with a non-zero bound the newest turn is the inserted one; other users, profiles and preferences unchanged |
| Store.AddTurnKeepsMostRecent | bot.py:189-216 | the store invariant (chronological, stamped histories) is kept, and the retained turns are exactly the n most recent |
| Store.LoadContext | bot.py:218-226 | one message per stored turn of that user, in order, role and content unchanged |
| Store.LoadIsOldestFirst | bot.py:222 | in a valid store the loaded turns are in ascending (timestamp, id) order |
| Store.AppendThenLoad | bot.py:189-226 | round trip: load after append is the previous context plus the new message, pruned; the last loaded message is the appended one |
| Store.ClearContext | bot.py:228-232 | the user's context is empty, other users and both other tables are untouched, and validity is kept |
| Store.ClearIdempotent | bot.py:228-232 | clearing twice equals clearing once |
| Store.UpdateProfile | bot.py:171-187 | username, first and last name come from the message; count becomes old+1 (1 for a new row); language resets to mixed and creation time to now; a default preferences row appears only if absent; nothing else changes |
| Store.CounterCountsUpdates | bot.py:178-179 | k updates add exactly k to the counter, starting from 0 for a new user |
| Store.TwoUpdatesOfNewUser | bot.py:178-179 | two updates of a user without a profile give a count of 2 |
| Store.PreferencesNeverOverwritten | bot.py:183-185 | an existing preferences row survives any number of profile updates |
| Store.GetStats | bot.py:234-249 | no result iff the user has no profile; otherwise the profile's counter, creation time and language |
| Store.StatsAfterUpdate | bot.py:171-187 | after an update the stats exist and show the new count and the mixed language |
| Session.AssembleRequest | bot.py:402-408 | the length is 2 plus the context; a user turn of persona, blank line and format block; the fixed acknowledgement; then the context in order |
| Session.Placeholder | bot.py:365-368 | the placeholder is Georgian iff the language is Georgian |
| Session.ErrorNotice | bot.py:429-437 | the notice is one of the two English texts iff the language is English and one of the two Georgian texts otherwise, so Mixed gets Georgian; the API notice iff the failure is an APIError |
| Session.HandleMessage | bot.py:355-437 | the language is the detector's answer; the placeholder is the one for that language; a delivered answer is shown, an undelivered one gives the generic notice, a failed call the localized notice; the request opens with the bootstrap pair; other users' turns, profiles and preferences unchanged |
| Session.RequestCarriesUserTurn | bot.py:373-408 | the request's context is the earlier context with the user's text appended and pruned; the text is the last message when the limit is non-zero |
| Session.SuccessRecordsAnswer | bot.py:420-421 | once the endpoint answers, exactly one assistant turn carrying the answer is appended after the recorded user turn, whether or not the answer is then delivered |
| Session.UndeliveredAnswerIsStored | bot.py:420-437 | if formatting or editing raises after the answer is stored, the store is the same as on delivery and the screen shows the generic error notice |
| Session.FailureLeavesUserTurnOnly | bot.py:429-437 | when the completion call itself fails, with an APIError or another exception, the stored turns are those after recording the user turn; no assistant turn |
| Session.SuccessExtendsFailure | bot.py:373-437 | the success context equals the failure context with the answer appended, pruned |
| Session.HandleMessageValid | bot.py:355-437 | every path keeps the store invariant |
| Session.GeorgianGreeting | bot.py:364-380 | a Georgian greeting gets the Georgian placeholder and the Georgian persona |
| Session.StartCommand | bot.py:277-280 | the sender's counter goes up by exactly one (from 0 for a new user), other profiles and every context are unchanged; the sender has a preferences row, an existing one is kept and other users' rows are unchanged; the welcome uses the gated language |
| Session.NewChatCommand | bot.py:315-318 | the sender's context is empty afterwards, other users' turns, all profiles and all preferences are unchanged, and the reply uses the gated language |
| Session.StatsCommand | bot.py:328-351 | the no-statistics notice iff the sender has no profile; a sender with a profile always gets the card, with the gated language and exactly the stored count, creation time and language |
| Session.NewUserStats | bot.py:350-351 | in any store, a sender without a profile gets "No statistics available yet." |
| Session.FreshStoreHasNoStats | bot.py:350-351 | in the empty store every sender gets the no-statistics text |
| Session.ReplyText | bot.py:320-323 | `/newchat` is worded in Georgian iff its language is Georgian, and in English otherwise, Mixed included; the no-statistics text belongs to `/stats` without a profile |
| Session.MixedWording | bot.py:282 | a Mixed classification words a command reply in English, while a failure notice for the same classification is Georgian |
| Session.StatsAfterMessage | bot.py:328-349 | after any message the sender's card shows the previous count plus one |
| Setup.Strip | setup.py:66 | the result has no whitespace at either end and is no longer than the input |
| Setup.StripIsInfix | setup.py:66 | the result is a contiguous part of the input, and everything removed is whitespace |
| Setup.MatchesTokenBodyIsShape | setup.py:33-36 | the matcher accepts exactly digits, a colon and 35 characters of `[A-Za-z0-9_-]` |
| Setup.ValidateTrimmedToken | setup.py:33-36 | on stripped input the validator accepts exactly the token shape |
| Setup.TrailingNewlineAccepted | setup.py:35 | the `$` anchor accepts a token followed by one newline |
| Setup.TokenRejections | setup.py:35 | stripped input is rejected with no colon, with a secret whose length is not 35, or with a non-digit before the first colon |
| Setup.LangdockKeyShape | setup.py:38-40 | a key is valid iff it is `sk-` or `ld-` followed by at least 8 characters |
| Setup.ShortKeyRejected | setup.py:40 | a key with a right prefix and at most 10 characters is rejected |
| Setup.ReadUntilValid | setup.py:65-72 | the value returned is the first stripped line that passes, and every earlier line fails; input that runs out means no line passed |
| Setup.FindFromLeftmost | setup.py:97 | the position found is the leftmost occurrence, and "not found" means no occurrence |
| Setup.NoOccurrenceAfterReplace | setup.py:97-98 | after `replace`, the pattern (or a word absent before) does not occur, given a value that fits the word |
| Setup.ReplaceBySelf | setup.py:100-101 | replacing a pattern by itself changes nothing |
| Setup.PlaceholdersRemoved | setup.py:97-101 | with fitting values no token or key placeholder remains, and no admin placeholder remains when an admin id was given |
| Setup.EmptyAdminKeepsPlaceholder | setup.py:100-101 | an empty admin id leaves the text as the other two replacements left it |
| Setup.ValidTokenCanRecreatePlaceholder | setup.py:97 | a valid token that does not contain the placeholder can still rebuild it with the text that follows it |
| Setup.SetupEnvironment | setup.py:42-108 | missing file iff `EnvMissing`; the written token is the first valid line, the key the first valid line after it, the admin id the line after that, all stripped; conversely, a first valid token line followed by a valid key line and one more line always gives a written result; no valid token line means input closed; three good lines give the rewritten text |

## Left out

- The persona texts are represented by their opening lines. The bullet lists that follow in bot.py:57-111 are fixed wording that no branch depends on.
- aiosqlite connections, the schema and its indexes (bot.py:114-157) are not modelled; the three tables are maps. Storage failures are not modelled either.
- `telegram_format` (bot.py:424) is an external library. The model shows the raw answer inside the `Formatted` screen; whether it or the edit at bot.py:427 raises is the `delivered` flag of the answer, not derived from the text (for example from Telegram's message length limit).
- The completion client and its network call (bot.py:38-44, 411-418) are replaced by the `Completion` parameter.
- aiogram dispatch, sending and editing messages, inline keyboards and their callbacks (bot.py:251-274, 441-488), and the HTML welcome and help texts are UI. They are not modelled beyond which reply and language are chosen.
- Session.StatsCommand: the statistics card is not rendered, so `member_since[:10]` (bot.py:339 and 347) is not modelled; `Stats` carries the creation time as a number.
- Async interleaving between concurrent handlers is not modelled; each store operation is atomic.
- Startup environment loading and `sys.exit` checks (bot.py:22-35), and `main` (bot.py:490-511), are not modelled.
- Setup.IsDigit: Python's `\d` also matches non-ASCII Unicode digits. The model accepts ASCII digits only.
- Setup.SetupEnvironment: console and file I/O are parameters, and an exhausted input stands for the exception `input()` raises. The version, dependency and test steps of setup.py (lines 110-225) are not modelled.
- Setup.PlaceholdersRemoved: it needs the `Fits` proviso rather than "the value does not contain the placeholder", because the weaker proviso is false. Setup.ValidTokenCanRecreatePlaceholder gives a valid token and a `.env` text where the placeholder survives `replace`.
- The pruning tie-break: the SQL orders by `timestamp` alone, and rows with equal timestamps have no defined order. The model orders by (timestamp, id), so among equal timestamps the later insertion counts as newer.

=== FILE: language.dfy ===
/**
 Language classification of inbound text (bot.py `detect_language`).

 The bot tallies characters of the Georgian Unicode block U+10A0..U+10FF and
 ASCII Latin letters and picks whichever script has strictly more characters;
 a tie, including the empty or script-free text, is `Mixed`.
 */
module Language {

  /** The closed set of categories the detector returns. */
  datatype Lang = Georgian | English | Mixed

  /** The string form used as a key of the prompt table. */
  function Name(l: Lang): string
  {
    match l
    case Georgian => "georgian"
    case English => "english"
    case Mixed => "mixed"
  }

  /** Character class `[Ⴀ-ჿ]`. */
  predicate IsGeorgianChar(c: char)
  {
    '\U{10A0}' <= c <= '\U{10FF}'
  }

  /** Character class `[a-zA-Z]` (ASCII only). */
  predicate IsLatinLetter(c: char)
  {
    ('a' <= c <= 'z') || ('A' <= c <= 'Z')
  }

  /** Number of Georgian characters, i.e. the length of `findall` of the Georgian class. */
  function CountGeorgian(s: string): (n: nat)
    ensures n <= |s|
  {
    if |s| == 0 then 0
    else CountGeorgian(s[..|s| - 1]) + (if IsGeorgianChar(s[|s| - 1]) then 1 else 0)
  }

  /** Number of ASCII Latin letters, i.e. the length of `findall` of the Latin class. */
  function CountLatin(s: string): (n: nat)
    ensures n <= |s|
  {
    if |s| == 0 then 0
    else CountLatin(s[..|s| - 1]) + (if IsLatinLetter(s[|s| - 1]) then 1 else 0)
  }

  /** The classifier itself: total, one of exactly three answers. */
  function Detect(text: string): (l: Lang)
  {
    if CountGeorgian(text) > CountLatin(text) then Georgian
    else if CountLatin(text) > CountGeorgian(text) then English
    else Mixed
  }

  /** The set of positions holding a character of class `p`: an independent
      reading of "how many characters match". */
  ghost function Positions(s: string, p: char -> bool): set<nat>
  {
    set i: nat | i < |s| && p(s[i])
  }

  lemma {:induction false} CountGeorgianIsPositions(s: string)
    ensures CountGeorgian(s) == |Positions(s, IsGeorgianChar)|
  {
    if |s| > 0 {
      var k := |s| - 1;
      CountGeorgianIsPositions(s[..k]);
      PositionsSnoc(s, IsGeorgianChar);
    }
  }

  lemma {:induction false} CountLatinIsPositions(s: string)
    ensures CountLatin(s) == |Positions(s, IsLatinLetter)|
  {
    if |s| > 0 {
      var k := |s| - 1;
      CountLatinIsPositions(s[..k]);
      PositionsSnoc(s, IsLatinLetter);
    }
  }

  /** Positions of a non-empty text split into those of its prefix and its last index. */
  lemma PositionsSnoc(s: string, p: char -> bool)
    requires |s| > 0
    ensures Positions(s, p) == Positions(s[..|s| - 1], p) + (if p(s[|s| - 1]) then {|s| - 1} else {})
    ensures |s| - 1 !in Positions(s[..|s| - 1], p)
  {
  }

  /** The classifier compared with the two position sets: Georgian exactly when
      more positions hold Georgian characters, English exactly when more hold
      Latin letters, Mixed exactly on a tie. */
  lemma DetectByPositions(text: string)
    ensures Detect(text) == Georgian <==> |Positions(text, IsGeorgianChar)| > |Positions(text, IsLatinLetter)|
    ensures Detect(text) == English <==> |Positions(text, IsLatinLetter)| > |Positions(text, IsGeorgianChar)|
    ensures Detect(text) == Mixed <==> |Positions(text, IsGeorgianChar)| == |Positions(text, IsLatinLetter)|
  {
    CountGeorgianIsPositions(text);
    CountLatinIsPositions(text);
  }

  /** Tallies are additive over concatenation: the classifier looks at the
      text as a whole, never at words. */
  lemma {:induction false} CountsAppend(a: string, b: string)
    ensures CountGeorgian(a + b) == CountGeorgian(a) + CountGeorgian(b)
    ensures CountLatin(a + b) == CountLatin(a) + CountLatin(b)
  {
    if |b| > 0 {
      var k := |b| - 1;
      assert (a + b)[..|a + b| - 1] == a + b[..k];
      CountsAppend(a, b[..k]);
    } else {
      assert a + b == a;
    }
  }

  /** A non-empty text written only in Georgian is classified Georgian. */
  lemma {:induction false} AllGeorgianIsGeorgian(text: string)
    requires |text| > 0
    requires forall i :: 0 <= i < |text| ==> IsGeorgianChar(text[i])
    ensures Detect(text) == Georgian
  {
    AllOfClassCounts(text);
  }

  /** A non-empty text written only in Latin letters is classified English. */
  lemma {:induction false} AllLatinIsEnglish(text: string)
    requires |text| > 0
    requires forall i :: 0 <= i < |text| ==> IsLatinLetter(text[i])
    ensures Detect(text) == English
  {
    AllOfClassCounts(text);
  }

  lemma {:induction false} AllOfClassCounts(text: string)
    ensures (forall i :: 0 <= i < |text| ==> IsGeorgianChar(text[i])) ==>
              CountGeorgian(text) == |text| && CountLatin(text) == 0
    ensures (forall i :: 0 <= i < |text| ==> IsLatinLetter(text[i])) ==>
              CountLatin(text) == |text| && CountGeorgian(text) == 0
  {
    if |text| > 0 {
      AllOfClassCounts(text[..|text| - 1]);
    }
  }

  /** Text containing neither script (digits, punctuation, emoji, the empty text) is Mixed. */
  lemma {:induction false} ScriptFreeIsMixed(text: string)
    requires forall i :: 0 <= i < |text| ==> !IsGeorgianChar(text[i]) && !IsLatinLetter(text[i])
    ensures Detect(text) == Mixed
  {
    NoneOfClassCounts(text);
  }

  lemma {:induction false} NoneOfClassCounts(text: string)
    requires forall i :: 0 <= i < |text| ==> !IsGeorgianChar(text[i]) && !IsLatinLetter(text[i])
    ensures CountGeorgian(text) == 0 && CountLatin(text) == 0
  {
    if |text| > 0 {
      NoneOfClassCounts(text[..|text| - 1]);
    }
  }

  /** An alternative single-pass formulation of the two tallies:
      `detect_language` scans the text twice, once per character class, and
      one left-to-right loop reaches the same two counts. */
  method Tally(text: string) returns (georgian: nat, latin: nat)
    ensures georgian == CountGeorgian(text) && latin == CountLatin(text)
    ensures georgian + latin <= |text|
  {
    georgian, latin := 0, 0;
    var i := 0;
    while i < |text|
      invariant 0 <= i <= |text|
      invariant georgian == CountGeorgian(text[..i])
      invariant latin == CountLatin(text[..i])
      invariant georgian + latin <= i
    {
      assert text[..i + 1][..i] == text[..i];
      if IsGeorgianChar(text[i]) {
        georgian := georgian + 1;
      } else if IsLatinLetter(text[i]) {
        latin := latin + 1;
      }
      i := i + 1;
    }
    assert text[..i] == text;
  }

  /** The command handlers classify only texts longer than `minLength`
      characters; shorter texts (the bare command) are `Mixed`. */
  function CommandLanguage(text: string, minLength: nat): (l: Lang)
    ensures l == Georgian <==>
              |text| > minLength && |Positions(text, IsGeorgianChar)| > |Positions(text, IsLatinLetter)|
    ensures l == English <==>
              |text| > minLength && |Positions(text, IsLatinLetter)| > |Positions(text, IsGeorgianChar)|
    ensures l == Mixed <==>
              |text| <= minLength || |Positions(text, IsGeorgianChar)| == |Positions(text, IsLatinLetter)|
  {
    DetectByPositions(text);
    if |text| > minLength then Detect(text) else Mixed
  }

  /** `/start` and `/stats` classify texts longer than 6 characters. */
  const StartStatsMinLength: nat := 6

  /** `/newchat` classifies texts longer than 8 characters. */
  const NewChatMinLength: nat := 8

  /** A command word: a slash followed by ASCII letters. */
  predicate IsCommandWord(cmd: string)
  {
    |cmd| > 0 && cmd[0] == '/' && forall i :: 1 <= i < |cmd| ==> IsLatinLetter(cmd[i])
  }

  /** The command handlers classify the whole message text, command included:
      past the length gate, the command word's letters count as Latin against
      whatever follows it. */
  lemma {:induction false} CommandWordCounts(cmd: string, rest: string, minLength: nat)
    requires IsCommandWord(cmd)
    requires |cmd| + |rest| > minLength
    ensures var g := CountGeorgian(rest);
            var l := CountLatin(rest) + |cmd| - 1;
            CommandLanguage(cmd + rest, minLength) ==
              (if g > l then Georgian else if l > g then English else Mixed)
  {
    var word := cmd[1..];
    assert cmd == "/" + word;
    assert forall i :: 0 <= i < |word| ==> IsLatinLetter(word[i]) by {
      forall i | 0 <= i < |word|
        ensures IsLatinLetter(word[i])
      {
        assert word[i] == cmd[i + 1];
      }
    }
    AllOfClassCounts(word);
    CountsAppend("/", word);
    assert "/"[..0] == "";
    CountsAppend(cmd, rest);
  }

  /** A short Georgian reply after `/stats` is still answered in English: the
      five letters of the command outweigh the two Georgian letters. */
  lemma ShortGeorgianAfterCommandIsEnglish()
    ensures CommandLanguage("/stats ჰო", StartStatsMinLength) == English
  {
    var rest := " ჰო";
    assert rest[..2][..1] == " " && rest[..1][..0] == "";
    assert CountGeorgian(rest) == 2 && CountLatin(rest) == 0;
    assert IsCommandWord("/stats");
    CommandWordCounts("/stats", rest, StartStatsMinLength);
    assert "/stats" + rest == "/stats ჰო";
  }

  /** The greeting "გამარჯობა" is classified Georgian. */
  lemma GreetingIsGeorgian()
    ensures Detect("გამარჯობა") == Georgian
  {
    var g := "გამარჯობა";
    assert forall i :: 0 <= i < |g| ==> IsGeorgianChar(g[i]);
    AllGeorgianIsGeorgian(g);
  }

  /** The bare commands are too short to be classified. */
  lemma BareCommandsAreMixed()
    ensures CommandLanguage("/start", StartStatsMinLength) == Mixed
    ensures CommandLanguage("/stats", StartStatsMinLength) == Mixed
    ensures CommandLanguage("/newchat", NewChatMinLength) == Mixed
  {
  }
}

=== FILE: prompts.dfy ===
/**
 The fixed texts the session sends: the three persona prompts of the
 `SYSTEM_PROMPTS` table (bot.py), the Telegram formatting block that always
 follows the persona, the synthetic acknowledgement, and the localized
 placeholder and error notices.

 Each persona prompt is represented by its opening line; the bullet lists
 that follow it in bot.py are static wording that no behaviour depends on.
 */
module Prompts {
  import opened Language

  /** Opening line of the Georgian persona. */
  const GeorgianPrompt: string := "შენ ხარ ძალიან ჭკვიანი და მეგობრული AI პერსონალური ასისტენტი. შენი მიზანია:"

  /** Opening line of the English persona. */
  const EnglishPrompt: string := "You are a highly intelligent and friendly AI personal assistant. Your mission is to:"

  /** Opening line of the bilingual persona used for Mixed text. */
  const MixedPrompt: string := "You are a multilingual AI personal assistant. Respond in the same language the user writes to you."

  /** The formatting conventions appended after every persona. */
  const FormatInstructions: string := "\nWhen formatting responses for Telegram, use these conventions:\n\n1. For spoiler content: ||spoiler text||\n2. For expandable sections: **> Section Title\n   > Content line 1\n   > Content line 2\n\n3. Standard markdown:\n   - **bold text**\n   - *italic*\n   - __underlined__\n   - ~~strikethrough~~\n   - `inline code`\n   - ```code blocks```\n   - [link text](URL)\n"

  /** The synthetic assistant reply that follows the instruction turn. */
  const Acknowledgement: string := "Understood! I'll use the specified formats and follow the instructions."

  /** The prompt table, keyed by the category's string form. */
  const SystemPrompts: map<string, string> :=
    map["georgian" := GeorgianPrompt, "english" := EnglishPrompt, "mixed" := MixedPrompt]

  /** The persona meant for each category, written as a closed case split. */
  function Persona(l: Lang): string
  {
    match l
    case Georgian => GeorgianPrompt
    case English => EnglishPrompt
    case Mixed => MixedPrompt
  }

  /** `SYSTEM_PROMPTS.get(key, SYSTEM_PROMPTS['mixed'])`. */
  function PromptFor(key: string): (r: string)
    ensures r in SystemPrompts.Values
  {
    if key in SystemPrompts then SystemPrompts[key] else SystemPrompts["mixed"]
  }

  /** Looking up a category's name yields that category's persona. */
  lemma PromptForCategory(l: Lang)
    ensures PromptFor(Name(l)) == Persona(l)
  {
  }

  /** Any key outside the table falls back to the Mixed persona. */
  lemma PromptFallback(key: string)
    requires key != "georgian" && key != "english" && key != "mixed"
    ensures PromptFor(key) == Persona(Mixed)
  {
  }

  /** The content of the instruction turn: persona, a blank line, the formatting block. */
  function InstructionText(persona: string): (r: string)
    ensures |r| == |persona| + 2 + |FormatInstructions|
    ensures r[..|persona|] == persona && r[|persona| + 2..] == FormatInstructions
    ensures r[|persona|..|persona| + 2] == "\n\n"
  {
    persona + "\n\n" + FormatInstructions
  }

  /** Placeholder shown while the completion is pending. */
  const ThinkingGeorgian: string := "🤔 ვფიქრობ..."
  const ThinkingEnglish: string := "🤔 Thinking..."

  /** Notice for a completion-endpoint error. */
  const ApiErrorEnglish: string := "😕 API error occurred. Please try again later."
  const ApiErrorGeorgian: string := "😕 API შეცდომა მოხდა. სცადეთ მოგვიანებით."

  /** Notice for any other failure. */
  const OtherErrorEnglish: string := "😕 Something went wrong. Please contact admin."
  const OtherErrorGeorgian: string := "😕 რაღაც არასწორად მოხდა. დაუკავშირდით ადმინს."

  /** Reply of `/stats` for a user without a profile row. */
  const NoStatistics: string := "📊 No statistics available yet."

  /** Reply of `/newchat`, Georgian and English. */
  const ContextClearedGeorgian: string := "🗑️ საუბრის კონტექსტი გაიწმინდა!\nახლა შეგიძლია ახალი თემა დაიწყო."
  const ContextClearedEnglish: string := "🗑️ Conversation context cleared!\nYou can now start a new topic."
}

=== FILE: session.dfy ===
/**
 The per-message flow of bot.py (`message_handler`) and the command handlers
 `/start`, `/newchat` and `/stats`, over the store model.

 The completion endpoint is not called: its behaviour for a request is a
 parameter (`Completion`), as is the time it takes (`latency`). Converting the
 answer to Telegram markup is an external library, represented by the
 `Formatted` screen that carries the raw answer.
 */
module Session {
  import opened Wrappers
  import opened Language
  import opened Prompts
  import opened Store

  /** How the completion call ends. */
  datatype Failure = ApiFailure | OtherFailure

  /** An answer is `delivered` unless formatting it or editing the placeholder
      with it raises; that happens after the answer has been stored. */
  datatype Completion = Answered(text: string, delivered: bool) | Failed(failure: Failure)

  /** What finally replaces the placeholder message. */
  datatype Screen = Formatted(raw: string) | Notice(text: string)

  /** An inbound text message. */
  datatype Inbound = Inbound(sender: Sender, text: string)

  /** Everything one message leaves behind: the store, the detected language,
      the placeholder sent, the request sent to the endpoint, the final screen. */
  datatype Outcome = Outcome(db: Db, lang: Lang, placeholder: string, request: seq<Message>, screen: Screen)

  /** The request: an instruction turn carrying persona and formatting block,
      the fixed acknowledgement, then the stored context unchanged. */
  function AssembleRequest(persona: string, context: seq<Message>): (r: seq<Message>)
    ensures |r| == 2 + |context|
    ensures r[0] == Message(User, InstructionText(persona))
    ensures r[0].role == User && r[0].content[..|persona|] == persona
    ensures r[0].content[|persona| + 2..] == FormatInstructions
    ensures r[1] == Message(Assistant, Acknowledgement)
    ensures forall i :: 0 <= i < |context| ==> r[i + 2] == context[i]
  {
    [Message(User, InstructionText(persona)), Message(Assistant, Acknowledgement)] + context
  }

  /** The "thinking" placeholder: Georgian only for Georgian text. */
  function Placeholder(l: Lang): (r: string)
    ensures r == ThinkingGeorgian <==> l == Georgian
    ensures r == ThinkingEnglish <==> l != Georgian
  {
    if l == Georgian then ThinkingGeorgian else ThinkingEnglish
  }

  /** The notice shown on failure: English only for English text, Georgian
      otherwise (Mixed included). */
  function ErrorNotice(f: Failure, l: Lang): (r: string)
    ensures r in {ApiErrorEnglish, OtherErrorEnglish} <==> l == English
    ensures r in {ApiErrorEnglish, ApiErrorGeorgian} <==> f == ApiFailure
    ensures r in {ApiErrorGeorgian, OtherErrorGeorgian} <==> l != English
  {
    match f
    case ApiFailure => if l == English then ApiErrorEnglish else ApiErrorGeorgian
    case OtherFailure => if l == English then OtherErrorEnglish else OtherErrorGeorgian
  }

  /** The store after the first two stages of a message: profile updated, user turn recorded. */
  function Recorded(db: Db, m: Inbound): (r: Db)
    ensures m.sender.id in r.profiles && m.sender.id in r.prefs
    ensures ContextLength(r, m.sender.id) == ContextLength(db, m.sender.id)
    ensures forall v :: v != m.sender.id ==> TurnsOf(r, v) == TurnsOf(db, v)
  {
    AddTurn(UpdateProfile(db, m.sender), m.sender.id, User, m.text)
  }

  /** `message_handler`: update the profile, classify the text, send the
      placeholder, record the user turn, send the request and, only if the
      endpoint answers, record the assistant turn. */
  function HandleMessage(db: Db, m: Inbound, latency: nat, completion: Completion): (r: Outcome)
    ensures r.lang == Detect(m.text)
    ensures r.placeholder == ThinkingGeorgian <==> r.lang == Georgian
    ensures r.placeholder == Placeholder(r.lang)
    ensures completion.Answered? && completion.delivered ==> r.screen == Formatted(completion.text)
    ensures completion.Answered? && !completion.delivered ==> r.screen == Notice(ErrorNotice(OtherFailure, r.lang))
    ensures completion.Failed? ==> r.screen == Notice(ErrorNotice(completion.failure, r.lang))
    ensures |r.request| >= 2 && r.request[0] == Message(User, InstructionText(Persona(r.lang)))
    ensures r.request[1] == Message(Assistant, Acknowledgement)
    ensures forall v :: v != m.sender.id ==> TurnsOf(r.db, v) == TurnsOf(db, v)
    ensures forall v :: v != m.sender.id ==>
              (v in r.db.profiles <==> v in db.profiles) && (v in db.profiles ==> r.db.profiles[v] == db.profiles[v])
    ensures forall v :: v != m.sender.id ==>
              (v in r.db.prefs <==> v in db.prefs) && (v in db.prefs ==> r.db.prefs[v] == db.prefs[v])
    ensures m.sender.id in r.db.profiles
  {
    var u := m.sender.id;
    var lang := Detect(m.text);
    var recorded := Recorded(db, m);
    PromptForCategory(lang);
    var request := AssembleRequest(PromptFor(Name(lang)), LoadContext(recorded, u));
    var later := Elapse(recorded, latency);
    match completion
    case Answered(answer, delivered) =>
      var screen := if delivered then Formatted(answer) else Notice(ErrorNotice(OtherFailure, lang));
      Outcome(AddTurn(later, u, Assistant, answer), lang, Placeholder(lang), request, screen)
    case Failed(f) =>
      Outcome(later, lang, Placeholder(lang), request, Notice(ErrorNotice(f, lang)))
  }

  /** The user turn is recorded before the request is built: the request is
      the bootstrap pair followed by the previous context with the user's
      text appended, pruned to the context length; so it ends with that text. */
  lemma {:induction false} RequestCarriesUserTurn(db: Db, m: Inbound, latency: nat, completion: Completion)
    ensures var r := HandleMessage(db, m, latency, completion);
            var n := ContextLength(db, m.sender.id);
            r.request == AssembleRequest(Persona(r.lang),
                           Prune(LoadContext(db, m.sender.id) + [Message(User, m.text)], n))
    ensures var r := HandleMessage(db, m, latency, completion);
            ContextLength(db, m.sender.id) != 0 ==>
              r.request[|r.request| - 1] == Message(User, m.text)
  {
    var u := m.sender.id;
    var ctx := RecordedContext(db, m);
    var r := HandleMessage(db, m, latency, completion);
    assert r.request == AssembleRequest(Persona(r.lang), ctx) by {
      PromptForCategory(Detect(m.text));
    }
    if ContextLength(db, u) != 0 {
      assert r.request[|r.request| - 1] == ctx[|ctx| - 1];
    }
  }

  /** The context loaded after recording the user turn. */
  lemma RecordedContextIs(db: Db, m: Inbound)
    ensures LoadContext(Recorded(db, m), m.sender.id)
            == Prune(LoadContext(db, m.sender.id) + [Message(User, m.text)], ContextLength(db, m.sender.id))
    ensures ContextLength(db, m.sender.id) != 0 ==>
              var ms := LoadContext(Recorded(db, m), m.sender.id);
              |ms| > 0 && ms[|ms| - 1] == Message(User, m.text)
  {
    var u := m.sender.id;
    var db1 := UpdateProfile(db, m.sender);
    assert LoadContext(db1, u) == LoadContext(db, u);
    AppendThenLoad(db1, u, User, m.text);
  }

  /** `RecordedContextIs` as a value. */
  function RecordedContext(db: Db, m: Inbound): (ms: seq<Message>)
    ensures ms == LoadContext(Recorded(db, m), m.sender.id)
    ensures ms == Prune(LoadContext(db, m.sender.id) + [Message(User, m.text)], ContextLength(db, m.sender.id))
    ensures ContextLength(db, m.sender.id) != 0 ==> |ms| > 0 && ms[|ms| - 1] == Message(User, m.text)
  {
    RecordedContextIs(db, m);
    LoadContext(Recorded(db, m), m.sender.id)
  }

  /** Once the endpoint answers, exactly one assistant turn, carrying the
      answer, is appended after the recorded user turn, whether or not the
      answer then reaches the screen. */
  lemma {:induction false} SuccessRecordsAnswer(db: Db, m: Inbound, latency: nat, answer: string, delivered: bool)
    ensures var r := HandleMessage(db, m, latency, Answered(answer, delivered));
            LoadContext(r.db, m.sender.id)
              == Prune(LoadContext(Recorded(db, m), m.sender.id) + [Message(Assistant, answer)],
                       ContextLength(db, m.sender.id))
    ensures var r := HandleMessage(db, m, latency, Answered(answer, delivered));
            var ms := LoadContext(r.db, m.sender.id);
            ContextLength(db, m.sender.id) != 0 ==> ms[|ms| - 1] == Message(Assistant, answer)
  {
    var later := Elapse(Recorded(db, m), latency);
    assert LoadContext(later, m.sender.id) == LoadContext(Recorded(db, m), m.sender.id);
    AppendThenLoad(later, m.sender.id, Assistant, answer);
  }

  /** On either failure no assistant turn is appended: the context is the
      previous one plus the dangling user turn, pruned. */
  lemma {:induction false} FailureLeavesUserTurnOnly(db: Db, m: Inbound, latency: nat, f: Failure)
    ensures var r := HandleMessage(db, m, latency, Failed(f));
            LoadContext(r.db, m.sender.id)
              == Prune(LoadContext(db, m.sender.id) + [Message(User, m.text)], ContextLength(db, m.sender.id))
    ensures var r := HandleMessage(db, m, latency, Failed(f));
            TurnsOf(r.db, m.sender.id) == TurnsOf(Recorded(db, m), m.sender.id)
  {
    var db1 := UpdateProfile(db, m.sender);
    assert LoadContext(db1, m.sender.id) == LoadContext(db, m.sender.id);
    AppendThenLoad(db1, m.sender.id, User, m.text);
  }

  /** The asymmetry between the two paths: the success context is the failure
      context with the assistant answer appended and pruned. */
  lemma SuccessExtendsFailure(db: Db, m: Inbound, latency: nat, answer: string, delivered: bool, f: Failure)
    ensures LoadContext(HandleMessage(db, m, latency, Answered(answer, delivered)).db, m.sender.id)
            == Prune(LoadContext(HandleMessage(db, m, latency, Failed(f)).db, m.sender.id) + [Message(Assistant, answer)],
                     ContextLength(db, m.sender.id))
  {
    SuccessRecordsAnswer(db, m, latency, answer, delivered);
    FailureLeavesUserTurnOnly(db, m, latency, f);
  }

  /** An answer that fails to reach the screen is stored all the same: the
      store is the one a delivered answer leaves, and only the screen differs,
      showing the generic error notice. */
  lemma UndeliveredAnswerIsStored(db: Db, m: Inbound, latency: nat, answer: string)
    ensures var r := HandleMessage(db, m, latency, Answered(answer, false));
            var ok := HandleMessage(db, m, latency, Answered(answer, true));
            r.db == ok.db && r.request == ok.request &&
            r.screen == Notice(ErrorNotice(OtherFailure, r.lang)) && ok.screen == Formatted(answer)
  {
  }

  /** Every path keeps the store invariant. */
  lemma HandleMessageValid(db: Db, m: Inbound, latency: nat, completion: Completion)
    requires Valid(db)
    ensures Valid(HandleMessage(db, m, latency, completion).db)
  {
    var db1 := UpdateProfile(db, m.sender);
    assert Valid(db1);
    AddTurnKeepsMostRecent(db1, m.sender.id, User, m.text);
    var later := Elapse(Recorded(db, m), latency);
    if completion.Answered? {
      AddTurnKeepsMostRecent(later, m.sender.id, Assistant, completion.text);
    }
  }

  /** A Georgian greeting selects the Georgian persona and placeholder. */
  lemma GeorgianGreeting(db: Db, s: Sender, latency: nat, completion: Completion)
    ensures var r := HandleMessage(db, Inbound(s, "გამარჯობა"), latency, completion);
            r.lang == Georgian && r.placeholder == ThinkingGeorgian &&
            r.request[0].content[..|GeorgianPrompt|] == GeorgianPrompt
  {
    GreetingIsGeorgian();
  }

  // ---------------------------------------------------------------------------
  // Command handlers

  /** What a command answers, before rendering. A reply is worded in Georgian
      only for a Georgian classification, so a Mixed one is worded in English:
      the opposite default from the error notices. */
  datatype Reply = Welcome(lang: Lang) | ContextCleared(lang: Lang) | NoStatsYet | StatsCard(lang: Lang, stats: Stats)

  /** `/start`: profile update, then the welcome in the gated language. */
  function StartCommand(db: Db, m: Inbound): (r: (Db, Reply))
    ensures r.1 == Welcome(CommandLanguage(m.text, StartStatsMinLength))
    ensures forall v :: TurnsOf(r.0, v) == TurnsOf(db, v)
    ensures m.sender.id in r.0.profiles
    ensures r.0.profiles[m.sender.id].messageCount ==
            (if m.sender.id in db.profiles then db.profiles[m.sender.id].messageCount else 0) + 1
    ensures forall v :: v != m.sender.id ==>
              (v in r.0.profiles <==> v in db.profiles) && (v in db.profiles ==> r.0.profiles[v] == db.profiles[v])
    ensures m.sender.id in r.0.prefs
    ensures m.sender.id in db.prefs ==> r.0.prefs[m.sender.id] == db.prefs[m.sender.id]
    ensures forall v :: v != m.sender.id ==>
              (v in r.0.prefs <==> v in db.prefs) && (v in db.prefs ==> r.0.prefs[v] == db.prefs[v])
  {
    (UpdateProfile(db, m.sender), Welcome(CommandLanguage(m.text, StartStatsMinLength)))
  }

  /** `/newchat`: clear the sender's context, then confirm in the gated language. */
  function NewChatCommand(db: Db, m: Inbound): (r: (Db, Reply))
    ensures LoadContext(r.0, m.sender.id) == []
    ensures forall v :: v != m.sender.id ==> TurnsOf(r.0, v) == TurnsOf(db, v)
    ensures r.0.profiles == db.profiles
    ensures r.0.prefs == db.prefs
    ensures r.1 == ContextCleared(CommandLanguage(m.text, NewChatMinLength))
  {
    (ClearContext(db, m.sender.id), ContextCleared(CommandLanguage(m.text, NewChatMinLength)))
  }

  /** `/stats`: the statistics card, or the no-statistics notice when the
      sender has no profile yet. */
  function StatsCommand(db: Db, m: Inbound): (r: Reply)
    ensures r.NoStatsYet? <==> m.sender.id !in db.profiles
    ensures r.StatsCard? ==>
              && r.lang == CommandLanguage(m.text, StartStatsMinLength)
              && r.stats.messageCount == db.profiles[m.sender.id].messageCount
    ensures r.StatsCard? ==> GetStats(db, m.sender.id) == Some(r.stats)
    ensures m.sender.id in db.profiles ==> r.StatsCard?
  {
    match GetStats(db, m.sender.id)
    case None => NoStatsYet
    case Some(st) => StatsCard(CommandLanguage(m.text, StartStatsMinLength), st)
  }

  /** Whether a reply is worded in Georgian. */
  predicate InGeorgian(r: Reply)
  {
    !r.NoStatsYet? && r.lang == Georgian
  }

  /** The text of a reply that needs no template: the fixed texts of
      `/newchat` and of `/stats` without statistics. */
  function ReplyText(r: Reply): (t: Option<string>)
    ensures t.Some? <==> r.ContextCleared? || r.NoStatsYet?
    ensures t == Some(NoStatistics) <==> r.NoStatsYet?
    ensures t == Some(ContextClearedGeorgian) <==> r.ContextCleared? && InGeorgian(r)
    ensures t == Some(ContextClearedEnglish) <==> r.ContextCleared? && !InGeorgian(r)
  {
    match r
    case NoStatsYet => Some(NoStatistics)
    case ContextCleared(l) => Some(if l == Georgian then ContextClearedGeorgian else ContextClearedEnglish)
    case _ => None
  }

  /** A Mixed classification words a command reply in English but a failure
      notice in Georgian. */
  lemma MixedWording(r: Reply, f: Failure)
    requires !r.NoStatsYet? && r.lang == Mixed
    ensures !InGeorgian(r)
    ensures ErrorNotice(f, r.lang) in {ApiErrorGeorgian, OtherErrorGeorgian}
  {
  }

  /** A user never seen, in any store, asking for statistics gets the
      no-statistics notice, not an error. */
  lemma NewUserStats(db: Db, m: Inbound)
    requires m.sender.id !in db.profiles
    ensures StatsCommand(db, m) == NoStatsYet
    ensures ReplyText(StatsCommand(db, m)) == Some(NoStatistics)
  {
  }

  /** In particular the empty store has statistics for nobody. */
  lemma FreshStoreHasNoStats(m: Inbound)
    ensures ReplyText(StatsCommand(Empty(), m)) == Some(NoStatistics)
  {
    NewUserStats(Empty(), m);
  }

  /** After any message the sender has statistics, counting that message. */
  lemma StatsAfterMessage(db: Db, m: Inbound, latency: nat, completion: Completion)
    ensures var r := StatsCommand(HandleMessage(db, m, latency, completion).db, m);
            r.StatsCard? &&
            r.stats.messageCount == (if m.sender.id in db.profiles then db.profiles[m.sender.id].messageCount else 0) + 1
  {
  }
}

=== FILE: setup.dfy ===
/**
 The credential checks and the `.env` rewrite of the setup wizard (setup.py):
 `validate_telegram_token`, `validate_langdock_key`, the two input loops that
 repeat until a value passes, and the placeholder substitution of
 `setup_environment`. Console and file I/O are replaced by a sequence of
 input lines and the `.env` text (absent when the file does not exist).
 */
module Setup {
  import opened Wrappers

  // ---------------------------------------------------------------------------
  // Character classes and `str.strip`

  /** `\d`, restricted to ASCII digits. */
  predicate IsDigit(c: char)
  {
    '0' <= c <= '9'
  }

  /** `[A-Za-z0-9_-]`. */
  predicate IsTokenChar(c: char)
  {
    ('A' <= c <= 'Z') || ('a' <= c <= 'z') || ('0' <= c <= '9') || c == '_' || c == '-'
  }

  /** The characters for which Python's `str.isspace` holds. */
  predicate IsSpace(c: char)
  {
    || c == ' ' || ('\t' <= c <= '\r') || ('\U{1C}' <= c <= '\U{1F}')
    || c == '\U{85}' || c == '\U{A0}' || c == '\U{1680}'
    || ('\U{2000}' <= c <= '\U{200A}') || c == '\U{2028}' || c == '\U{2029}'
    || c == '\U{202F}' || c == '\U{205F}' || c == '\U{3000}'
  }

  predicate AllDigits(s: string)
  {
    forall k :: 0 <= k < |s| ==> IsDigit(s[k])
  }

  predicate AllTokenChars(s: string)
  {
    forall k :: 0 <= k < |s| ==> IsTokenChar(s[k])
  }

  predicate AllSpace(s: string)
  {
    forall k :: 0 <= k < |s| ==> IsSpace(s[k])
  }

  /** Neither end of `s` is whitespace. */
  predicate Trimmed(s: string)
  {
    |s| == 0 || (!IsSpace(s[0]) && !IsSpace(s[|s| - 1]))
  }

  /** The first position at or after `i` that is not whitespace. */
  function SkipSpaces(s: string, i: nat): (k: nat)
    requires i <= |s|
    ensures i <= k <= |s|
    ensures forall m :: i <= m < k ==> IsSpace(s[m])
    ensures k < |s| ==> !IsSpace(s[k])
    decreases |s| - i
  {
    if i < |s| && IsSpace(s[i]) then SkipSpaces(s, i + 1) else i
  }

  /** The end of `s[lo..j]` once trailing whitespace is dropped. */
  function DropTrailingSpaces(s: string, lo: nat, j: nat): (k: nat)
    requires lo <= j <= |s|
    ensures lo <= k <= j
    ensures forall m :: k <= m < j ==> IsSpace(s[m])
    ensures k > lo ==> !IsSpace(s[k - 1])
    decreases j
  {
    if j > lo && IsSpace(s[j - 1]) then DropTrailingSpaces(s, lo, j - 1) else j
  }

  /** `str.strip()`: whitespace removed at both ends. */
  function Strip(s: string): (r: string)
    ensures Trimmed(r) && |r| <= |s|
  {
    var i := SkipSpaces(s, 0);
    var j := DropTrailingSpaces(s, i, |s|);
    assert j > i ==> s[i..j][0] == s[i] && s[i..j][j - i - 1] == s[j - 1];
    s[i..j]
  }

  /** What `Strip` removes is whitespace and what it keeps is a contiguous
      part of the input. */
  lemma StripIsInfix(s: string)
    ensures var r := Strip(s);
            exists i :: 0 <= i <= |s| - |r| && r == s[i..i + |r|] && AllSpace(s[..i]) && AllSpace(s[i + |r|..])
  {
    var i := SkipSpaces(s, 0);
    var j := DropTrailingSpaces(s, i, |s|);
    assert Strip(s) == s[i..j];
    assert AllSpace(s[..i]) by {
      forall m | 0 <= m < i
        ensures IsSpace(s[..i][m])
      {
        assert s[..i][m] == s[m];
      }
    }
    assert AllSpace(s[j..]) by {
      forall m | 0 <= m < |s| - j
        ensures IsSpace(s[j..][m])
      {
        assert s[j..][m] == s[j + m];
      }
    }
  }

  // ---------------------------------------------------------------------------
  // Telegram token

  /** The length of the secret part after the colon. */
  const SecretLength: nat := 35

  /** The token shape split at position `i`: digits, the colon, 35 token characters. */
  predicate TokenShapeAt(t: string, i: nat)
  {
    0 < i < |t| && AllDigits(t[..i]) && t[i] == ':' && |t| - i - 1 == SecretLength && AllTokenChars(t[i + 1..])
  }

  /** The language of `\d+:[A-Za-z0-9_-]{35}`. */
  ghost predicate TokenShape(t: string)
  {
    exists i: nat :: TokenShapeAt(t, i)
  }

  /** The end of the run of digits starting at `i`. */
  function DigitRun(t: string, i: nat): (j: nat)
    requires i <= |t|
    ensures i <= j <= |t| && AllDigits(t[i..j])
    ensures j < |t| ==> !IsDigit(t[j])
    decreases |t| - i
  {
    if i < |t| && IsDigit(t[i]) then
      var j := DigitRun(t, i + 1);
      assert t[i..j] == [t[i]] + t[i + 1..j];
      j
    else i
  }

  /** The anchored match of the pattern body: a greedy digit run (a colon is
      never a digit, so no backtracking can help), the colon, and exactly 35
      token characters up to the end. */
  function MatchesTokenBody(t: string): bool
  {
    var j := DigitRun(t, 0);
    0 < j < |t| && t[j] == ':' && |t| - j - 1 == SecretLength && AllTokenChars(t[j + 1..])
  }

  /** `validate_telegram_token`: `re.match` with a final `$`, which also
      matches just before a single trailing newline. */
  function ValidateTelegramToken(t: string): bool
  {
    MatchesTokenBody(t) || (|t| > 0 && t[|t| - 1] == '\n' && MatchesTokenBody(t[..|t| - 1]))
  }

  lemma {:induction false} DigitRunStops(t: string, k: nat, i: nat)
    requires k <= i < |t|
    requires forall m :: k <= m < i ==> IsDigit(t[m])
    requires !IsDigit(t[i])
    ensures DigitRun(t, k) == i
    decreases i - k
  {
    if k < i {
      DigitRunStops(t, k + 1, i);
    }
  }

  /** The matcher accepts exactly the strings of the token shape. */
  lemma MatchesTokenBodyIsShape(t: string)
    ensures MatchesTokenBody(t) <==> TokenShape(t)
  {
    var j := DigitRun(t, 0);
    if MatchesTokenBody(t) {
      assert t[0..j] == t[..j];
      assert TokenShapeAt(t, j);
    }
    if TokenShape(t) {
      var i: nat :| TokenShapeAt(t, i);
      forall m | 0 <= m < i
        ensures IsDigit(t[m])
      {
        assert t[..i][m] == t[m];
      }
      DigitRunStops(t, 0, i);
    }
  }

  /** For the stripped input the wizard passes, the validator accepts exactly
      the token shape. */
  lemma ValidateTrimmedToken(t: string)
    requires Trimmed(t)
    ensures ValidateTelegramToken(t) <==> TokenShape(t)
  {
    MatchesTokenBodyIsShape(t);
  }

  /** The `$` anchor lets one trailing newline through. */
  lemma TrailingNewlineAccepted(t: string)
    requires TokenShape(t)
    ensures ValidateTelegramToken(t + "\n")
  {
    assert (t + "\n")[..|t|] == t;
    MatchesTokenBodyIsShape(t);
  }

  /** Every character of an all-digit prefix is a digit of the whole text. */
  lemma DigitsOfPrefix(t: string, i: nat)
    requires i <= |t| && AllDigits(t[..i])
    ensures forall m :: 0 <= m < i ==> IsDigit(t[m])
  {
    forall m | 0 <= m < i
      ensures IsDigit(t[m])
    {
      assert t[..i][m] == t[m];
    }
  }

  /** Rejections of stripped input: without a colon; with a digit run followed
      by a colon and a secret whose length is not 35; with a non-digit before
      the first colon. */
  lemma TokenRejections(t: string)
    requires Trimmed(t)
    ensures (forall k :: 0 <= k < |t| ==> t[k] != ':') ==> !ValidateTelegramToken(t)
    ensures (exists i :: 0 < i < |t| && AllDigits(t[..i]) && t[i] == ':' && |t| - i - 1 != SecretLength)
              ==> !ValidateTelegramToken(t)
    ensures (exists i, k :: 0 <= k < i < |t| && t[i] == ':' && !IsDigit(t[k])
                            && forall m :: 0 <= m < i ==> t[m] != ':')
              ==> !ValidateTelegramToken(t)
  {
    ValidateTrimmedToken(t);
    if ValidateTelegramToken(t) {
      var j: nat :| TokenShapeAt(t, j);
      assert t[j] == ':';
      DigitsOfPrefix(t, j);
      forall i | 0 < i < |t| && AllDigits(t[..i]) && t[i] == ':'
        ensures i == j
      {
        DigitsOfPrefix(t, i);
      }
    }
  }

  // ---------------------------------------------------------------------------
  // Langdock key

  predicate StartsWith(s: string, p: string)
  {
    |p| <= |s| && s[..|p|] == p
  }

  /** `validate_langdock_key`. */
  function ValidateLangdockKey(k: string): bool
  {
    |k| > 10 && (StartsWith(k, "sk-") || StartsWith(k, "ld-"))
  }

  /** A key is valid exactly when it is one of the two prefixes followed by
      at least eight more characters. */
  lemma LangdockKeyShape(k: string)
    ensures ValidateLangdockKey(k) <==>
            exists p, rest :: p in {"sk-", "ld-"} && |rest| >= 8 && k == p + rest
  {
    if ValidateLangdockKey(k) {
      var p := k[..3];
      assert k == p + k[3..];
    }
    if exists p, rest :: p in {"sk-", "ld-"} && |rest| >= 8 && k == p + rest {
      var p, rest :| p in {"sk-", "ld-"} && |rest| >= 8 && k == p + rest;
      assert k[..3] == p;
    }
  }

  /** A key with the right prefix but at most ten characters is rejected. */
  lemma ShortKeyRejected(k: string)
    requires StartsWith(k, "sk-") || StartsWith(k, "ld-")
    requires |k| <= 10
    ensures !ValidateLangdockKey(k)
  {
  }

  // ---------------------------------------------------------------------------
  // Input loops

  /** Read stripped lines until one passes `valid`. Returns the value and the
      number of lines consumed, or `None` when the input ends first (the
      `input()` call then raises and the wizard exits). */
  method ReadUntilValid(lines: seq<string>, valid: string -> bool) returns (value: Option<string>, used: nat)
    ensures used <= |lines|
    ensures value.Some? ==> 0 < used && value.value == Strip(lines[used - 1]) && valid(value.value)
    ensures value.Some? ==> forall k :: 0 <= k < used - 1 ==> !valid(Strip(lines[k]))
    ensures value.None? ==> used == |lines| && forall k :: 0 <= k < |lines| ==> !valid(Strip(lines[k]))
  {
    used := 0;
    while used < |lines|
      invariant used <= |lines|
      invariant forall k :: 0 <= k < used ==> !valid(Strip(lines[k]))
    {
      var candidate := Strip(lines[used]);
      used := used + 1;
      if valid(candidate) {
        return Some(candidate), used;
      }
    }
    return None, used;
  }

  // ---------------------------------------------------------------------------
  // Placeholder substitution

  const TokenPlaceholder: string := "YOUR_TELEGRAM_BOT_TOKEN_HERE"
  const KeyPlaceholder: string := "YOUR_LANGDOCK_API_KEY_HERE"
  const AdminPlaceholder: string := "YOUR_TELEGRAM_USER_ID"

  predicate OccursAt(s: string, w: string, p: nat)
  {
    p + |w| <= |s| && s[p..p + |w|] == w
  }

  ghost predicate Occurs(s: string, w: string)
  {
    exists p: nat :: OccursAt(s, w, p)
  }

  /** The leftmost occurrence of `pat` at or after `from`, as `str.find` gives it. */
  function FindFrom(s: string, pat: string, from: nat): (r: Option<nat>)
    requires |pat| > 0
    ensures r.Some? ==> from <= r.value && OccursAt(s, pat, r.value)
    decreases |s| - from
  {
    if from + |pat| > |s| then None
    else if s[from..from + |pat|] == pat then Some(from)
    else FindFrom(s, pat, from + 1)
  }

  /** `FindFrom` finds the leftmost occurrence, and `None` means there is none. */
  lemma {:induction false} FindFromLeftmost(s: string, pat: string, from: nat)
    requires |pat| > 0
    ensures FindFrom(s, pat, from).Some? ==>
              forall p: nat :: from <= p < FindFrom(s, pat, from).value ==> !OccursAt(s, pat, p)
    ensures FindFrom(s, pat, from).None? ==> forall p: nat :: from <= p ==> !OccursAt(s, pat, p)
    decreases |s| - from
  {
    if from + |pat| > |s| {
    } else if s[from..from + |pat|] != pat {
      FindFromLeftmost(s, pat, from + 1);
    }
  }

  /** `str.replace(pat, rep)`: replace every leftmost, non-overlapping
      occurrence, scanning left to right. */
  function ReplaceAll(s: string, pat: string, rep: string): (r: string)
    requires |pat| > 0
    ensures !Occurs(s, pat) ==> r == s
    decreases |s|
  {
    match FindFrom(s, pat, 0)
    case None => s
    case Some(q) => ReplaceAt(s, pat, rep, q)
  }

  /** The text before position `q`, the replacement, and the rest of the text
      after the pattern, itself replaced. */
  function ReplaceAt(s: string, pat: string, rep: string, q: nat): string
    requires |pat| > 0 && q + |pat| <= |s|
    decreases |s| - q, 0
  {
    s[..q] + rep + ReplaceAll(s[q + |pat|..], pat, rep)
  }

  /** `rep` cannot take part in an occurrence of `w` once spliced into any
      text: it is non-empty, its first character does not occur in `w` after
      `w`'s first position, it does not contain `w`, and no suffix of it is a
      proper prefix of `w`. */
  ghost predicate Fits(rep: string, w: string)
  {
    && |rep| > 0
    && (forall k :: 1 <= k < |w| ==> w[k] != rep[0])
    && !Occurs(rep, w)
    && (forall i :: 0 <= i < |rep| && |rep| - i < |w| ==> rep[i..] != w[..|rep| - i])
  }

  /** Splicing a fitting `rep` between two texts free of `w` creates no occurrence of `w`. */
  lemma SpliceNoOccurrence(a: string, rep: string, tail: string, w: string)
    requires |w| > 0 && Fits(rep, w)
    requires !Occurs(a, w) && !Occurs(tail, w)
    ensures !Occurs(a + rep + tail, w)
  {
    var r := a + rep + tail;
    forall p: nat | OccursAt(r, w, p)
      ensures false
    {
      if p + |w| <= |a| {
        SpliceBefore(a, rep, tail, w, p);
      } else if p < |a| {
        SpliceStraddle(a, rep, tail, w, p);
      } else if p < |a| + |rep| {
        SpliceInside(a, rep, tail, w, p);
      } else {
        SpliceAfter(a, rep, tail, w, p);
      }
    }
  }

  lemma SpliceBefore(a: string, rep: string, tail: string, w: string, p: nat)
    requires OccursAt(a + rep + tail, w, p) && p + |w| <= |a|
    ensures OccursAt(a, w, p)
  {
    assert (a + rep + tail)[p..p + |w|] == a[p..p + |w|];
  }

  lemma SpliceStraddle(a: string, rep: string, tail: string, w: string, p: nat)
    requires |rep| > 0
    requires OccursAt(a + rep + tail, w, p) && p < |a| < p + |w|
    ensures w[|a| - p] == rep[0]
  {
    var r := a + rep + tail;
    assert w[|a| - p] == r[p..p + |w|][|a| - p] == r[|a|];
  }

  lemma SpliceInside(a: string, rep: string, tail: string, w: string, p: nat)
    requires OccursAt(a + rep + tail, w, p) && |a| <= p < |a| + |rep|
    ensures var i := p - |a|;
            if |rep| - i >= |w| then OccursAt(rep, w, i) else rep[i..] == w[..|rep| - i]
  {
    var r := a + rep + tail;
    var i := p - |a|;
    if |rep| - i >= |w| {
      assert rep[i..i + |w|] == r[p..p + |w|];
    } else {
      assert rep[i..] == r[p..p + |w|][..|rep| - i];
    }
  }

  lemma SpliceAfter(a: string, rep: string, tail: string, w: string, p: nat)
    requires OccursAt(a + rep + tail, w, p) && p >= |a| + |rep|
    ensures OccursAt(tail, w, p - |a| - |rep|)
  {
    var r := a + rep + tail;
    var p' := p - |a| - |rep|;
    assert tail[p'..p' + |w|] == r[p..p + |w|];
  }

  /** An occurrence in a suffix is an occurrence in the whole text. */
  lemma OccursInSuffix(s: string, k: nat, w: string, p: nat)
    requires k <= |s| && OccursAt(s[k..], w, p)
    ensures OccursAt(s, w, k + p)
  {
    assert s[k + p..k + p + |w|] == s[k..][p..p + |w|];
  }

  /** An occurrence in a prefix is an occurrence in the whole text, ending inside the prefix. */
  lemma OccursInPrefix(s: string, q: nat, w: string, p: nat)
    requires q <= |s| && OccursAt(s[..q], w, p)
    ensures OccursAt(s, w, p) && p + |w| <= q
  {
    assert s[p..p + |w|] == s[..q][p..p + |w|];
  }

  /** After replacing `pat` by a fitting `rep`, `w` does not occur, provided
      `w` is the pattern itself or did not occur before. */
  lemma {:induction false} NoOccurrenceAfterReplace(s: string, pat: string, rep: string, w: string)
    requires |pat| > 0 && |w| > 0
    requires Fits(rep, w)
    requires w == pat || !Occurs(s, w)
    ensures !Occurs(ReplaceAll(s, pat, rep), w)
    decreases |s|
  {
    FindFromLeftmost(s, pat, 0);
    match FindFrom(s, pat, 0)
    case None =>
    case Some(q) =>
      var rest := s[q + |pat|..];
      HeadFree(s, pat, q, w);
      if w != pat {
        RestFree(s, q + |pat|, w);
      }
      NoOccurrenceAfterReplace(rest, pat, rep, w);
      ReplaceStep(s, pat, rep, q);
      SpliceNoOccurrence(s[..q], rep, ReplaceAll(rest, pat, rep), w);
  }

  /** One step of the replacement: the text before the first occurrence, the
      replacement, and the replaced remainder. */
  lemma ReplaceStep(s: string, pat: string, rep: string, q: nat)
    requires |pat| > 0
    requires FindFrom(s, pat, 0) == Some(q)
    ensures ReplaceAll(s, pat, rep) == s[..q] + rep + ReplaceAll(s[q + |pat|..], pat, rep)
  {
    assert ReplaceAll(s, pat, rep) == ReplaceAt(s, pat, rep, q);
  }

  /** The text before the leftmost occurrence of `pat` holds neither `pat`
      nor anything absent from the whole text. */
  lemma HeadFree(s: string, pat: string, q: nat, w: string)
    requires |pat| > 0 && q <= |s|
    requires forall p: nat :: p < q ==> !OccursAt(s, pat, p)
    requires w == pat || !Occurs(s, w)
    ensures !Occurs(s[..q], w)
  {
    forall p: nat | OccursAt(s[..q], w, p)
      ensures false
    {
      OccursInPrefix(s, q, w, p);
    }
  }

  /** A word absent from a text is absent from each of its suffixes. */
  lemma RestFree(s: string, k: nat, w: string)
    requires k <= |s| && !Occurs(s, w)
    ensures !Occurs(s[k..], w)
  {
    forall p: nat | OccursAt(s[k..], w, p)
      ensures false
    {
      OccursInSuffix(s, k, w, p);
    }
  }

  /** Replacing a pattern by itself changes nothing. */
  lemma {:induction false} ReplaceBySelf(s: string, pat: string)
    requires |pat| > 0
    ensures ReplaceAll(s, pat, pat) == s
    decreases |s|
  {
    match FindFrom(s, pat, 0)
    case None =>
    case Some(q) =>
      var rest := s[q + |pat|..];
      ReplaceBySelf(rest, pat);
      assert s == s[..q] + s[q..q + |pat|] + rest;
  }

  /** The `.env` rewrite: token and key placeholders always, the admin
      placeholder only for a non-empty admin id. */
  function SubstituteEnv(env: string, token: string, key: string, adminId: string): string
  {
    var withToken := ReplaceAll(env, TokenPlaceholder, token);
    var withKey := ReplaceAll(withToken, KeyPlaceholder, key);
    if adminId != "" then ReplaceAll(withKey, AdminPlaceholder, adminId) else withKey
  }

  /** No placeholder survives the rewrite when every inserted value fits every
      placeholder it could meet afterwards; the admin placeholder is removed
      when an admin id was given. */
  lemma PlaceholdersRemoved(env: string, token: string, key: string, adminId: string)
    requires Fits(token, TokenPlaceholder)
    requires Fits(key, TokenPlaceholder) && Fits(key, KeyPlaceholder)
    requires adminId != "" ==>
               Fits(adminId, TokenPlaceholder) && Fits(adminId, KeyPlaceholder) && Fits(adminId, AdminPlaceholder)
    ensures !Occurs(SubstituteEnv(env, token, key, adminId), TokenPlaceholder)
    ensures !Occurs(SubstituteEnv(env, token, key, adminId), KeyPlaceholder)
    ensures adminId != "" ==> !Occurs(SubstituteEnv(env, token, key, adminId), AdminPlaceholder)
  {
    var withToken := ReplaceAll(env, TokenPlaceholder, token);
    var withKey := ReplaceAll(withToken, KeyPlaceholder, key);
    NoOccurrenceAfterReplace(env, TokenPlaceholder, token, TokenPlaceholder);
    NoOccurrenceAfterReplace(withToken, KeyPlaceholder, key, TokenPlaceholder);
    NoOccurrenceAfterReplace(withToken, KeyPlaceholder, key, KeyPlaceholder);
    if adminId != "" {
      NoOccurrenceAfterReplace(withKey, AdminPlaceholder, adminId, TokenPlaceholder);
      NoOccurrenceAfterReplace(withKey, AdminPlaceholder, adminId, KeyPlaceholder);
      NoOccurrenceAfterReplace(withKey, AdminPlaceholder, adminId, AdminPlaceholder);
    }
  }

  /** Skipping the admin id leaves the admin placeholder as it was: the result
      equals substituting the placeholder for itself. */
  lemma EmptyAdminKeepsPlaceholder(env: string, token: string, key: string)
    ensures SubstituteEnv(env, token, key, "") == SubstituteEnv(env, token, key, AdminPlaceholder)
  {
    var withKey := ReplaceAll(ReplaceAll(env, TokenPlaceholder, token), KeyPlaceholder, key);
    ReplaceBySelf(withKey, AdminPlaceholder);
  }

  /** A well-formed token whose secret ends with the placeholder's first letter. */
  function EchoToken(): (t: string)
    ensures |t| == 37 && t[36] == 'Y'
  {
    "1:" + seq(34, _ => 'A') + "Y"
  }

  lemma EchoTokenValid()
    ensures ValidateTelegramToken(EchoToken())
  {
    var t := EchoToken();
    assert DigitRun(t, 0) == 1 by {
      assert IsDigit(t[0]) && !IsDigit(t[1]);
    }
    assert AllTokenChars(t[2..]) by {
      forall k | 0 <= k < |t[2..]|
        ensures IsTokenChar(t[2..][k])
      {
        assert t[2..][k] == t[k + 2];
      }
    }
  }

  lemma EchoTokenLacksPlaceholder()
    ensures !Occurs(EchoToken(), TokenPlaceholder)
  {
    var t := EchoToken();
    forall p: nat | p + |TokenPlaceholder| <= |t|
      ensures !OccursAt(t, TokenPlaceholder, p)
    {
      assert p <= 9;
      assert t[p] != 'Y';
      assert t[p..p + |TokenPlaceholder|][0] == t[p];
    }
  }

  /** The guarantee of `NoOccurrenceAfterReplace` needs its `Fits` proviso.
      Excluding the placeholder from the value is not enough: a valid token
      that ends with the start of the placeholder re-creates it together with
      the text that followed the replaced occurrence. */
  lemma ValidTokenCanRecreatePlaceholder()
    ensures var env := TokenPlaceholder + TokenPlaceholder[1..];
            && ValidateTelegramToken(EchoToken())
            && !Occurs(EchoToken(), TokenPlaceholder)
            && Occurs(ReplaceAll(env, TokenPlaceholder, EchoToken()), TokenPlaceholder)
  {
    EchoTokenValid();
    EchoTokenLacksPlaceholder();
    var t := EchoToken();
    var rest := TokenPlaceholder[1..];
    var env := TokenPlaceholder + rest;
    EchoReplacement(env, rest);
    var r := t + rest;
    assert r[36..64] == [t[36]] + rest;
    assert OccursAt(r, TokenPlaceholder, 36);
  }

  /** The placeholder at the start of `env` is replaced by the token, and the
      remainder, too short to hold another placeholder, stays as it is. */
  lemma EchoReplacement(env: string, rest: string)
    requires env == TokenPlaceholder + rest && |rest| < |TokenPlaceholder|
    ensures ReplaceAll(env, TokenPlaceholder, EchoToken()) == EchoToken() + rest
  {
    var n := |TokenPlaceholder|;
    assert env[0..n] == TokenPlaceholder;
    assert FindFrom(env, TokenPlaceholder, 0) == Some(0);
    ReplaceStep(env, TokenPlaceholder, EchoToken(), 0);
    assert env[..0] == [] && env[n..] == rest;
    assert !Occurs(rest, TokenPlaceholder);
  }

  // ---------------------------------------------------------------------------
  // The environment step

  datatype SetupResult =
    | EnvMissing
    | InputClosed
    | Written(content: string, token: string, key: string, adminId: string)

  /** Line `i` is the first line whose stripped text is a valid token, and
      line `j` the first valid key after it. */
  predicate FirstValidLines(lines: seq<string>, i: nat, j: nat)
    requires i < j < |lines|
  {
    && ValidateTelegramToken(Strip(lines[i]))
    && (forall k :: 0 <= k < i ==> !ValidateTelegramToken(Strip(lines[k])))
    && ValidateLangdockKey(Strip(lines[j]))
    && (forall k :: i < k < j ==> !ValidateLangdockKey(Strip(lines[k])))
  }

  /** The two reading loops, the second one on the lines the first left
      over, stop at the first valid token and the first valid key after it. */
  lemma FirstValidAfterReads(lines: seq<string>, used: nat, usedForKey: nat)
    requires 0 < used && 0 < usedForKey && used + usedForKey <= |lines|
    requires ValidateTelegramToken(Strip(lines[used - 1]))
    requires forall k :: 0 <= k < used - 1 ==> !ValidateTelegramToken(Strip(lines[k]))
    requires ValidateLangdockKey(Strip(lines[used..][usedForKey - 1]))
    requires forall k :: 0 <= k < usedForKey - 1 ==> !ValidateLangdockKey(Strip(lines[used..][k]))
    ensures FirstValidLines(lines, used - 1, used + usedForKey - 1)
  {
    assert lines[used..][usedForKey - 1] == lines[used + usedForKey - 1];
    forall k | used - 1 < k < used + usedForKey - 1
      ensures !ValidateLangdockKey(Strip(lines[k]))
    {
      assert lines[used..][k - used] == lines[k];
    }
  }

  /** `setup_environment`: read the `.env` text, loop for a valid token, loop
      for a valid key, read the optional admin id, and produce the rewritten
      text. */
  method SetupEnvironment(env: Option<string>, lines: seq<string>) returns (r: SetupResult)
    ensures env.None? <==> r == EnvMissing
    ensures r.Written? ==>
              && ValidateTelegramToken(r.token) && Trimmed(r.token)
              && ValidateLangdockKey(r.key) && Trimmed(r.key)
              && Trimmed(r.adminId)
              && r.content == SubstituteEnv(env.value, r.token, r.key, r.adminId)
    ensures r.Written? ==>
              exists i, j :: 0 <= i < j < |lines| - 1 && FirstValidLines(lines, i, j)
                             && r.token == Strip(lines[i]) && r.key == Strip(lines[j])
                             && r.adminId == Strip(lines[j + 1])
    ensures (env.Some? && exists i, j :: 0 <= i < j < |lines| - 1 && FirstValidLines(lines, i, j)) ==> r.Written?
    ensures (env.Some? && forall k :: 0 <= k < |lines| ==> !ValidateTelegramToken(Strip(lines[k])))
              ==> r == InputClosed
    ensures (env.Some? && |lines| >= 3 && ValidateTelegramToken(Strip(lines[0])) && ValidateLangdockKey(Strip(lines[1])))
              ==> r == Written(SubstituteEnv(env.value, Strip(lines[0]), Strip(lines[1]), Strip(lines[2])),
                               Strip(lines[0]), Strip(lines[1]), Strip(lines[2]))
  {
    if env.None? {
      return EnvMissing;
    }
    var token, used := ReadUntilValid(lines, ValidateTelegramToken);
    if token.None? {
      return InputClosed;
    }
    // Any pair of first valid lines starts at the token just read.
    forall i, j | 0 <= i < j < |lines| && FirstValidLines(lines, i, j)
      ensures i == used - 1
    {
    }
    var rest := lines[used..];
    var key, usedForKey := ReadUntilValid(rest, ValidateLangdockKey);
    if key.None? {
      forall j | used <= j < |lines|
        ensures !ValidateLangdockKey(Strip(lines[j]))
      {
        assert rest[j - used] == lines[j];
      }
      return InputClosed;
    }
    FirstValidAfterReads(lines, used, usedForKey);
    // ... and ends at the key just read.
    forall i, j | 0 <= i < j < |lines| && FirstValidLines(lines, i, j)
      ensures j == used + usedForKey - 1
    {
    }
    if used + usedForKey >= |lines| {
      return InputClosed;
    }
    var adminId := Strip(lines[used + usedForKey]);
    return Written(SubstituteEnv(env.value, token.value, key.value, adminId), token.value, key.value, adminId);
  }
}

=== FILE: store.dfy ===
/**
 The conversation store of bot.py: the `chat_context`, `user_profiles` and
 `user_preferences` tables as immutable maps keyed by user id, and the store
 operations `update_user_profile`, `add_message_to_context`,
 `get_user_context`, `clear_user_context` and `get_user_stats`.

 Time is a counter owned by the store: every row written by an operation is
 stamped with the current `clock`, and only `Elapse` advances it, so several
 rows may share a timestamp as they do at the database's one-second
 resolution. Where the database orders by timestamp alone, this model breaks
 ties by the AUTOINCREMENT id.
 */
module Store {
  import opened Wrappers

  type UserId = int

  /** The `role` column; the bot writes only these two values. */
  datatype Role = User | Assistant

  /** A row of `chat_context`; the owning user is the key it is stored under. */
  datatype Turn = Turn(id: nat, role: Role, content: string, timestamp: nat)

  /** A `{role, content}` pair as loaded from the store and sent to the endpoint. */
  datatype Message = Message(role: Role, content: string)

  /** The Telegram user a message comes from. */
  datatype Sender = Sender(id: UserId, username: Option<string>, firstName: string, lastName: Option<string>)

  /** A row of `user_profiles`. */
  datatype Profile = Profile(
    username: Option<string>,
    firstName: string,
    lastName: Option<string>,
    preferredLanguage: string,
    createdAt: nat,
    lastActive: nat,
    messageCount: int)

  /** A row of `user_preferences`. */
  datatype Preferences = Preferences(contextLength: int, responseStyle: string, timezone: string)

  /** The three tables, the next AUTOINCREMENT id of `chat_context`, and the clock. */
  datatype Db = Db(
    turns: map<UserId, seq<Turn>>,
    profiles: map<UserId, Profile>,
    prefs: map<UserId, Preferences>,
    nextId: nat,
    clock: nat)

  /** Column defaults of the schema. */
  const DefaultContextLength: int := 20
  const DefaultPreferences: Preferences := Preferences(DefaultContextLength, "balanced", "UTC")
  const DefaultLanguage: string := "mixed"

  /** The freshly created database. */
  function Empty(): (db: Db)
    ensures Valid(db)
    ensures forall u :: TurnsOf(db, u) == [] && u !in db.profiles && u !in db.prefs
  {
    Db(map[], map[], map[], 1, 0)
  }

  /** All `chat_context` rows of one user, in insertion order. */
  function TurnsOf(db: Db, u: UserId): seq<Turn>
  {
    if u in db.turns then db.turns[u] else []
  }

  /** `a` comes after `b` in the recency order: later timestamp, ties broken by id. */
  predicate Newer(a: Turn, b: Turn)
  {
    a.timestamp > b.timestamp || (a.timestamp == b.timestamp && a.id > b.id)
  }

  /** Every turn is newer than all turns before it: oldest first. */
  ghost predicate Chronological(ts: seq<Turn>)
  {
    forall i, j :: 0 <= i < j < |ts| ==> Newer(ts[j], ts[i])
  }

  /** Every stored turn was written before the current id and clock. */
  ghost predicate Stamped(ts: seq<Turn>, nextId: nat, clock: nat)
  {
    forall i :: 0 <= i < |ts| ==> ts[i].id < nextId && ts[i].timestamp <= clock
  }

  /** The store invariant kept by every operation. */
  ghost predicate Valid(db: Db)
  {
    forall u :: u in db.turns ==> Chronological(db.turns[u]) && Stamped(db.turns[u], db.nextId, db.clock)
  }

  /** Time passes between operations. */
  function Elapse(db: Db, seconds: nat): (r: Db)
    ensures r.clock == db.clock + seconds
    ensures Valid(db) ==> Valid(r)
    ensures r.(clock := db.clock) == db
  {
    db.(clock := db.clock + seconds)
  }

  // ---------------------------------------------------------------------------
  // Retention

  /** The retention bound: the preference row's `context_length`, or 20 without one. */
  function ContextLength(db: Db, u: UserId): int
  {
    if u in db.prefs then db.prefs[u].contextLength else DefaultContextLength
  }

  /** Keep the last `n` elements; as with SQLite's LIMIT, a negative `n` keeps all. */
  function Prune<T>(ts: seq<T>, n: int): (r: seq<T>)
    ensures n >= 0 ==> |r| == (if n < |ts| then n else |ts|)
    ensures n < 0 ==> r == ts
    ensures forall i :: 0 <= i < |r| ==> r[i] == ts[|ts| - |r| + i]
  {
    if n < 0 || n >= |ts| then ts else ts[|ts| - n..]
  }

  /** How many turns of `ts` are newer than `t`. */
  function CountNewer(ts: seq<Turn>, t: Turn): (c: nat)
    ensures c <= |ts|
  {
    if |ts| == 0 then 0
    else (if Newer(ts[0], t) then 1 else 0) + CountNewer(ts[1..], t)
  }

  /** The turns of `rest` that `ORDER BY timestamp DESC LIMIT n` over `all`
      selects: those with fewer than `n` newer turns, in their original order. */
  function SelectFrom(rest: seq<Turn>, all: seq<Turn>, n: int): seq<Turn>
  {
    if |rest| == 0 then []
    else (if n < 0 || CountNewer(all, rest[0]) < n then [rest[0]] else []) + SelectFrom(rest[1..], all, n)
  }

  /** The rows the pruning DELETE leaves behind: the `n` most recent. */
  function Selected(all: seq<Turn>, n: int): seq<Turn>
  {
    SelectFrom(all, all, n)
  }

  lemma {:induction false} CountNewerAllNewer(ts: seq<Turn>, t: Turn)
    requires forall i :: 0 <= i < |ts| ==> Newer(ts[i], t)
    ensures CountNewer(ts, t) == |ts|
  {
    if |ts| > 0 {
      CountNewerAllNewer(ts[1..], t);
    }
  }

  /** In a chronological sequence, the turn at `i` has exactly the turns after it as newer ones. */
  lemma {:induction false} CountNewerAt(ts: seq<Turn>, i: int)
    requires Chronological(ts)
    requires 0 <= i < |ts|
    ensures CountNewer(ts, ts[i]) == |ts| - 1 - i
  {
    if i == 0 {
      CountNewerAllNewer(ts[1..], ts[0]);
    } else {
      assert !Newer(ts[0], ts[i]) by {
        assert Newer(ts[i], ts[0]);
      }
      assert ts[1..][i - 1] == ts[i];
      CountNewerAt(ts[1..], i - 1);
    }
  }

  lemma {:induction false} SelectFromSuffix(all: seq<Turn>, k: int, n: int)
    requires Chronological(all)
    requires 0 <= k <= |all|
    ensures n < 0 ==> SelectFrom(all[k..], all, n) == all[k..]
    ensures n >= 0 ==> SelectFrom(all[k..], all, n) == all[(if k < |all| - n then |all| - n else k)..]
    decreases |all| - k
  {
    if k < |all| {
      assert all[k..][1..] == all[k + 1..];
      SelectFromSuffix(all, k + 1, n);
      CountNewerAt(all, k);
      assert all[k..] == [all[k]] + all[k + 1..];
    }
  }

  /** Keeping the last `n` of a chronological sequence is exactly what the
      database's recency-ordered DELETE keeps. */
  lemma PruneIsSelection(ts: seq<Turn>, n: int)
    requires Chronological(ts)
    ensures Prune(ts, n) == Selected(ts, n)
  {
    assert ts[0..] == ts;
    SelectFromSuffix(ts, 0, n);
  }

  // ---------------------------------------------------------------------------
  // Operations

  /** `add_message_to_context`: insert a turn stamped with the next id and the
      current time, then prune the user's turns to their context length. */
  function AddTurn(db: Db, u: UserId, role: Role, content: string): (r: Db)
    ensures var n := ContextLength(db, u);
            n >= 0 ==> |TurnsOf(r, u)| <= n
    ensures var n := ContextLength(db, u);
            n < 0 ==> TurnsOf(r, u) == TurnsOf(db, u) + [Turn(db.nextId, role, content, db.clock)]
    ensures ContextLength(db, u) != 0 ==>
              |TurnsOf(r, u)| > 0 && TurnsOf(r, u)[|TurnsOf(r, u)| - 1] == Turn(db.nextId, role, content, db.clock)
    ensures forall v :: v != u ==> TurnsOf(r, v) == TurnsOf(db, v)
    ensures r.profiles == db.profiles && r.prefs == db.prefs
    ensures r.nextId == db.nextId + 1 && r.clock == db.clock
  {
    var t := Turn(db.nextId, role, content, db.clock);
    var kept := Prune(TurnsOf(db, u) + [t], ContextLength(db, u));
    db.(turns := db.turns[u := kept], nextId := db.nextId + 1)
  }

  /** A turn stamped with the next id and the current clock is newer than every stored one. */
  lemma AppendFreshChronological(ts: seq<Turn>, t: Turn, nextId: nat, clock: nat)
    requires Chronological(ts) && Stamped(ts, nextId, clock)
    requires t.id == nextId && t.timestamp == clock
    ensures Chronological(ts + [t]) && Stamped(ts + [t], nextId + 1, clock)
  {
    var xs := ts + [t];
    forall i, j | 0 <= i < j < |xs|
      ensures Newer(xs[j], xs[i])
    {
      assert xs[i] == ts[i];
      if j < |ts| {
        assert xs[j] == ts[j];
      }
    }
  }

  /** Any suffix of a chronological, stamped sequence is chronological and stamped. */
  lemma SuffixChronological(ts: seq<Turn>, k: nat, nextId: nat, clock: nat)
    requires Chronological(ts) && Stamped(ts, nextId, clock)
    requires k <= |ts|
    ensures Chronological(ts[k..]) && Stamped(ts[k..], nextId, clock)
  {
    var xs := ts[k..];
    forall i, j | 0 <= i < j < |xs|
      ensures Newer(xs[j], xs[i])
    {
      assert xs[i] == ts[k + i] && xs[j] == ts[k + j];
    }
    forall i | 0 <= i < |xs|
      ensures xs[i].id < nextId && xs[i].timestamp <= clock
    {
      assert xs[i] == ts[k + i];
    }
  }

  /** Pruning keeps a history chronological and stamped. */
  lemma PruneKeepsOrder(ts: seq<Turn>, n: int, nextId: nat, clock: nat)
    requires Chronological(ts) && Stamped(ts, nextId, clock)
    ensures Chronological(Prune(ts, n)) && Stamped(Prune(ts, n), nextId, clock)
  {
    var kept := Prune(ts, n);
    assert kept == ts[|ts| - |kept|..];
    SuffixChronological(ts, |ts| - |kept|, nextId, clock);
  }

  /** The retained turns are the most recent ones by timestamp and id, and
      the store stays valid. */
  lemma AddTurnKeepsMostRecent(db: Db, u: UserId, role: Role, content: string)
    requires Valid(db)
    ensures var r := AddTurn(db, u, role, content);
            Valid(r) &&
            TurnsOf(r, u) == Selected(TurnsOf(db, u) + [Turn(db.nextId, role, content, db.clock)], ContextLength(db, u))
  {
    var t := Turn(db.nextId, role, content, db.clock);
    var ts := TurnsOf(db, u) + [t];
    var n := ContextLength(db, u);
    AppendFreshChronological(TurnsOf(db, u), t, db.nextId, db.clock);
    PruneIsSelection(ts, n);
    PruneKeepsOrder(ts, n, db.nextId + 1, db.clock);
    UpdateValid(db, u, Prune(ts, n));
  }

  /** Replacing one user's turns by a chronological, stamped sequence, with a
      larger id counter, keeps the store valid. */
  lemma UpdateValid(db: Db, u: UserId, kept: seq<Turn>)
    requires Valid(db)
    requires Chronological(kept) && Stamped(kept, db.nextId + 1, db.clock)
    ensures Valid(db.(turns := db.turns[u := kept], nextId := db.nextId + 1))
  {
    var r := db.(turns := db.turns[u := kept], nextId := db.nextId + 1);
    forall v | v in r.turns && v != u
      ensures Chronological(r.turns[v]) && Stamped(r.turns[v], r.nextId, r.clock)
    {
      assert r.turns[v] == db.turns[v];
    }
  }

  /** The `{role, content}` view of turns. */
  function Messages(ts: seq<Turn>): (ms: seq<Message>)
    ensures |ms| == |ts|
    ensures forall i :: 0 <= i < |ts| ==> ms[i].role == ts[i].role && ms[i].content == ts[i].content
  {
    seq(|ts|, i requires 0 <= i < |ts| => Message(ts[i].role, ts[i].content))
  }

  /** `get_user_context`: the user's turns, oldest first, role and content unchanged. */
  function LoadContext(db: Db, u: UserId): (ms: seq<Message>)
    ensures |ms| == |TurnsOf(db, u)|
    ensures forall i :: 0 <= i < |ms| ==> ms[i].role == TurnsOf(db, u)[i].role && ms[i].content == TurnsOf(db, u)[i].content
  {
    Messages(TurnsOf(db, u))
  }

  /** In a valid store the loaded messages come from turns in ascending
      (timestamp, id) order, as `ORDER BY timestamp ASC` requires. */
  lemma LoadIsOldestFirst(db: Db, u: UserId)
    requires Valid(db)
    ensures Chronological(TurnsOf(db, u))
    ensures |LoadContext(db, u)| == |TurnsOf(db, u)|
  {
  }

  lemma MessagesPrune(ts: seq<Turn>, n: int)
    ensures Messages(Prune(ts, n)) == Prune(Messages(ts), n)
  {
  }

  /** Round trip: loading after an append yields the previous context with the
      new message appended, pruned to the context length; the appended role
      and content come back exactly as given. */
  lemma {:induction false} AppendThenLoad(db: Db, u: UserId, role: Role, content: string)
    ensures LoadContext(AddTurn(db, u, role, content), u)
            == Prune(LoadContext(db, u) + [Message(role, content)], ContextLength(db, u))
    ensures ContextLength(db, u) != 0 ==>
              var ms := LoadContext(AddTurn(db, u, role, content), u);
              |ms| > 0 && ms[|ms| - 1] == Message(role, content)
  {
    var t := Turn(db.nextId, role, content, db.clock);
    var ts := TurnsOf(db, u) + [t];
    var n := ContextLength(db, u);
    assert TurnsOf(AddTurn(db, u, role, content), u) == Prune(ts, n);
    MessagesAppend(TurnsOf(db, u), t);
    MessagesPrune(ts, n);
  }

  lemma MessagesAppend(ts: seq<Turn>, t: Turn)
    ensures Messages(ts + [t]) == Messages(ts) + [Message(t.role, t.content)]
  {
    assert Messages(ts + [t]) == Messages(ts) + [Message(t.role, t.content)];
  }

  /** `clear_user_context`: delete every turn of the user. */
  function ClearContext(db: Db, u: UserId): (r: Db)
    ensures TurnsOf(r, u) == []
    ensures forall v :: v != u ==> TurnsOf(r, v) == TurnsOf(db, v)
    ensures r.profiles == db.profiles && r.prefs == db.prefs
    ensures r.nextId == db.nextId && r.clock == db.clock
    ensures Valid(db) ==> Valid(r)
  {
    db.(turns := db.turns - {u})
  }

  /** Clearing twice is clearing once. */
  lemma ClearIdempotent(db: Db, u: UserId)
    ensures ClearContext(ClearContext(db, u), u) == ClearContext(db, u)
  {
  }

  /** `update_user_profile`: INSERT OR REPLACE of the profile with the counter
      incremented (COALESCE of the old value with 0, plus one), then INSERT OR
      IGNORE of a default preferences row. The replaced row takes the column
      defaults for the language and the creation time. */
  function UpdateProfile(db: Db, s: Sender): (r: Db)
    ensures s.id in r.profiles
    ensures r.profiles[s.id].messageCount ==
            (if s.id in db.profiles then db.profiles[s.id].messageCount else 0) + 1
    ensures r.profiles[s.id].username == s.username && r.profiles[s.id].firstName == s.firstName
    ensures r.profiles[s.id].lastName == s.lastName
    ensures r.profiles[s.id].preferredLanguage == DefaultLanguage
    ensures r.profiles[s.id].createdAt == db.clock && r.profiles[s.id].lastActive == db.clock
    ensures s.id in r.prefs
    ensures s.id in db.prefs ==> r.prefs[s.id] == db.prefs[s.id]
    ensures s.id !in db.prefs ==> r.prefs[s.id] == DefaultPreferences
    ensures forall v :: v != s.id ==>
              (v in r.profiles <==> v in db.profiles) && (v in r.profiles ==> r.profiles[v] == db.profiles[v])
    ensures forall v :: v != s.id ==>
              (v in r.prefs <==> v in db.prefs) && (v in r.prefs ==> r.prefs[v] == db.prefs[v])
    ensures r.turns == db.turns && r.nextId == db.nextId && r.clock == db.clock
  {
    var previous := if s.id in db.profiles then db.profiles[s.id].messageCount else 0;
    var profile := Profile(s.username, s.firstName, s.lastName, DefaultLanguage, db.clock, db.clock, previous + 1);
    var prefs := if s.id in db.prefs then db.prefs else db.prefs[s.id := DefaultPreferences];
    db.(profiles := db.profiles[s.id := profile], prefs := prefs)
  }

  /** `k` consecutive profile updates for the same sender. */
  function UpdateTimes(db: Db, s: Sender, k: nat): Db
  {
    if k == 0 then db else UpdateProfile(UpdateTimes(db, s, k - 1), s)
  }

  /** The counter counts calls: `k` updates of a user without a profile leave
      the count at `k`, and a user with a profile gains exactly `k`. */
  lemma {:induction false} CounterCountsUpdates(db: Db, s: Sender, k: nat)
    requires k > 0
    ensures var r := UpdateTimes(db, s, k);
            s.id in r.profiles &&
            r.profiles[s.id].messageCount == (if s.id in db.profiles then db.profiles[s.id].messageCount else 0) + k
  {
    if k > 1 {
      CounterCountsUpdates(db, s, k - 1);
    }
  }

  /** Two updates of a new user give a count of 2. */
  lemma TwoUpdatesOfNewUser(db: Db, s: Sender)
    requires s.id !in db.profiles
    ensures UpdateProfile(UpdateProfile(db, s), s).profiles[s.id].messageCount == 2
  {
  }

  /** Preferences, once present, survive any number of profile updates. */
  lemma {:induction false} PreferencesNeverOverwritten(db: Db, s: Sender, k: nat)
    requires s.id in db.prefs
    ensures var r := UpdateTimes(db, s, k);
            s.id in r.prefs && r.prefs[s.id] == db.prefs[s.id]
  {
    if k > 0 {
      PreferencesNeverOverwritten(db, s, k - 1);
    }
  }

  /** The `get_user_stats` result. */
  datatype Stats = Stats(messageCount: int, memberSince: nat, preferredLanguage: string)

  /** `get_user_stats`: the profile's counter, creation time and language, or
      nothing when the user has no profile row. */
  function GetStats(db: Db, u: UserId): (r: Option<Stats>)
    ensures r.None? <==> u !in db.profiles
    ensures r.Some? ==>
              && r.value.messageCount == db.profiles[u].messageCount
              && r.value.memberSince == db.profiles[u].createdAt
              && r.value.preferredLanguage == db.profiles[u].preferredLanguage
  {
    if u in db.profiles then
      var p := db.profiles[u];
      Some(Stats(p.messageCount, p.createdAt, p.preferredLanguage))
    else None
  }

  /** After a profile update the stats exist and report the updated count
      and the default language. */
  lemma StatsAfterUpdate(db: Db, s: Sender)
    ensures var st := GetStats(UpdateProfile(db, s), s.id);
            st.Some? && st.value.preferredLanguage == DefaultLanguage &&
            st.value.messageCount == (if s.id in db.profiles then db.profiles[s.id].messageCount else 0) + 1
  {
  }
}

=== FILE: wrappers.dfy ===
/** An optional value, shared by the other modules. */
module Wrappers {

  /** A value that may be absent: a missing database row, an exhausted input. */
  datatype Option<+T> = None | Some(value: T)
}
